=== FILE: README.md ===
# Auction-item catalogue: a verified model

This Dafny project models the local logic of a small auction-item catalogue.
The catalogue is a command-line tool (`commends.js`) over a document-database
collection (`index.js`, and the identical functions in `controller.js`). Three
pieces of logic are modelled:

- **Prompt validators** (`validators.dfy`). These are the four `validate`
  callbacks of the `add`/`update` questions: the title length, the non-blank
  description, the start price and the reserve price. JavaScript semantics are
  written out. `length` counts UTF-16 code units. `trim` removes the
  ECMAScript whitespace and line-terminator code points. Prices are JavaScript
  numbers (`Item.Num`), including NaN and the two infinities.
- **Search** (`search.dfy`). `findAuctionItem` splits the query with
  `split(' ')` and turns every piece into a case-insensitive matcher. A record
  is selected when some piece occurs in its title or some piece occurs in its
  description (`$or` of two `$in`).
- **The collection as its callers see it** (`store.dfy`). A class holds the
  records in a `map` from identifier to record, plus the insertion order. Its
  methods model `addAuctionItem`, `findAuctionItem`, `updateAuctionItem`,
  `deleteAuctionItem` and `getAllItems`. The record shape comes from
  `models/AuctionItems.js`: `title` is required and the other three fields are
  optional (`item.dfy`).
- **Command outcomes** (`cli.dfy`). These are pure functions that give, for
  each command, the lines printed and the exit code, from what each awaited
  step produced. `RunUpdate` and `RunDelete` connect two of them to the
  collection.

`index.js` and `controller.js` contain the same `addAuctionItem`,
`findAuctionItem`, `updateAuctionItem` and `deleteAuctionItem`, and
`controller.js` adds `getAllItems`. Each is modelled once. The table cites
whichever file the row's lines are read from.

Design choices:

- A storage failure is an argument `fault` of each store method. When it is
  present, the method hands the message back unchanged and changes nothing.
- Identifiers come from a counter. Identifiers are never reused, and a new
  one is never held by a stored record.
- Whether an identifier is well formed (`mongoose.isValidObjectId`) is a
  boolean argument of the command functions.

Behaviour of the code that a caller may not expect:

- A blank query yields one empty token, because `"".split(' ')` is `[""]`.
  That token matches every record (`Search.BlankQueryFindsAll`). Leading,
  trailing or doubled spaces likewise widen a search to the whole collection.
- The `delete` command checks no identifier format. A malformed identifier
  reaches the delete call, which throws (`Cli.RunDelete`). A missing record
  is reported as deleted with exit code 0
  (`Cli.DeleteMissingLooksLikeSuccess`).
- The reserve-price callback only rejects values below zero, so it accepts
  NaN (`Validators.PriceValidatorsDisagreeOnNaN`). It never compares the
  reserve with the start price.
- The `update` command catches an error from the update call and still exits
  with 0 (`Cli.UpdateExitIgnoresResult`).

## Model

| member | source | states |
|---|---|---|
| `Item.BelowZeroIsNotAtLeastZero` | commends.js:29-36 | `n < 0` and `n >= 0` are complements on every number except NaN; on NaN both are false |
| `Item.Replace` | index.js:58-66 | an update keeps the record's identifier and yields exactly the record that creating the input under that identifier would |
| `Item.ReplaceProjectsFourFields` | index.js:60-65 | an update ignores every input property other than title, description, start_price and reserve_price, ignores the record's old field values, and is idempotent |
| `Validators.JsLength` | commends.js:17 | JavaScript `length` is the character count plus the number of characters outside the Basic Multilingual Plane; so it lies between the character count and twice it, and equals the character count on BMP strings |
| `Validators.ValidateTitle` | commends.js:17 | returns true or 'Title must be at least 3 characters'; accepts exactly when the UTF-16 length is >= 3: every string of 3 or more characters, no string of 0 or 1, a string of 2 exactly when one of its characters is outside the BMP |
| `Validators.TwoAstralCharactersPass` | commends.js:17 | a two-character title of characters outside the BMP passes, because JavaScript counts its length as 4 |
| `Validators.TrimStart` | commends.js:23 | the result is a suffix of the input, everything dropped is whitespace, and the result does not start with whitespace |
| `Validators.TrimEnd` | commends.js:23 | the result is a prefix of the input, everything dropped is whitespace, and the result does not end with whitespace |
| `Validators.Trim` | commends.js:23 | `trim()` is empty exactly when the string is all whitespace; otherwise it starts and ends with non-whitespace |
| `Validators.ValidateDescription` | commends.js:23 | returns true or 'Description is required'; accepts exactly the strings with at least one non-whitespace character |
| `Validators.ValidateStartPrice` | commends.js:29 | returns true or 'Price must be non-negative'; accepts exactly the finite numbers >= 0 and +Infinity (NaN is rejected) |
| `Validators.ValidateReservePrice` | commends.js:35-39 | returns true or 'Price must be non-negative'; rejects exactly the finite numbers < 0 and -Infinity |
| `Validators.PriceValidatorsAgreeOnNumbers` | commends.js:29-38 | for every number except NaN, the start-price and reserve-price callbacks give the same verdict |
| `Validators.PriceValidatorsDisagreeOnNaN` | commends.js:26-38 | on NaN the start price is rejected and the reserve price accepted |
| `Validators.ReserveIgnoresStartPrice` | commends.js:35-39 | the reserve verdict does not depend on the earlier answers, so a reserve below the start price is accepted |
| `Validators.AcceptedAnswersShape` | commends.js:12-41 | answers that pass all four callbacks have a title of JavaScript length >= 3, a non-blank description, a start price that is a number >= 0, and a reserve price that is not below zero |
| `Search.Split` | index.js:41 | `split(' ')` yields at least one piece, and no piece contains a space |
| `Search.JoinSplit` | index.js:41 | joining the pieces with ' ' gives back the query |
| `Search.SplitJoin` | index.js:41 | space-free pieces joined with ' ' split back into the same pieces |
| `Search.SplitLength` | index.js:41 | the number of pieces is the number of space characters plus one |
| `Search.SplitAppend` | index.js:41 | splitting `a + ' ' + b` gives the pieces of `a` followed by the pieces of `b` |
| `Search.EmptyPieceIff` | index.js:41 | an empty piece occurs exactly when the query is empty, starts or ends with a space, or holds two adjacent spaces |
| `Search.ContainsAt` | index.js:41 | the unanchored literal pattern matches exactly when it occurs at some position of the field |
| `Search.AnyTokenMatchesIff` | index.js:43 | `{ field: { $in: tokens } }` holds exactly when some token matches the field |
| `Search.Filter` | index.js:42-44 | the result has no more records than the input, and holds exactly the input records that match |
| `Search.FilterCounts` | index.js:42-44 | each matching record occurs in the result as often as in the input, and no other record occurs |
| `Search.FilterAppend` | index.js:42-44 | the result keeps the input order: filtering a concatenation gives the filtered parts in sequence |
| `Search.FindIff` | index.js:41-44 | a record is found iff it is stored and some piece occurs case-insensitively in its title, or some piece occurs in its description |
| `Search.EmptyTokenMatchesAll` | index.js:41-43 | an empty piece matches every string |
| `Search.BlankQueryFindsAll` | controller.js:17-20 | a query that is blank or has a leading, trailing or doubled space finds every record, in order |
| `Search.NoMatchFindsNothing` | controller.js:17-24 | when no record matches, the result is the empty sequence |
| `Search.MoreTokensWiden` | index.js:43 | extending a query with a space and more words finds everything the shorter query finds |
| `Search.SplitFold` | index.js:41 | case folding commutes with splitting on ' ' |
| `Search.FindIgnoresCase` | index.js:41 | two queries equal up to ASCII letter case find the same records in the same order |
| `Search.FindUpperCase` | controller.js:17 | an upper-cased query finds the same records as the original |
| `Search.GoldExample` | index.js:41-44 | "gold" finds both "Gold Ring" and "Silver Gold Necklace", and "GOLD" finds the same |
| `Store.Without` | index.js:75 | removing an identifier from the insertion order keeps every other identifier, drops that one, and keeps the order duplicate-free |
| `Store.WithoutAppend` | index.js:75 | removal keeps the relative order of the remaining identifiers: removing from a concatenation removes from each part in place |
| `Store.WithoutMiddle` | index.js:75 | removing an identifier that sits once between two runs of other identifiers leaves the two runs joined, each in its old order |
| `Store.Collection.All` | controller.js:67 | the unfiltered read has one record per stored identifier: exactly the stored records |
| `Store.Collection.AddAuctionItem` | index.js:27-37 | stores the input's four declared fields (an input `_id` is not honoured) under an identifier no stored record holds and no earlier add issued, appends its identifier to the read order and returns it; a storage error is rethrown unchanged and nothing is stored |
| `Store.Collection.FindAuctionItem` | controller.js:16-30 | returns, in stored order, exactly the stored records the query matches; a storage error is rethrown unchanged |
| `Store.Collection.UpdateAuctionItem` | index.js:56-72 | an absent identifier returns null and changes nothing; otherwise it replaces exactly the four fields of that record, keeps its identifier and every other record, and returns the new record |
| `Store.Collection.DeleteAuctionItem` | index.js:74-88 | an absent identifier returns null and changes nothing; otherwise it removes exactly that record and returns it; without a storage error the records and the order afterwards never hold that identifier |
| `Store.Collection.GetAllItems` | controller.js:66-76 | returns every stored record unfiltered, and the empty sequence exactly when the collection is empty; a storage error is rethrown unchanged |
| `Store.AddThenGetAll` | controller.js:4-13 | together with `getAllItems` (controller.js:66-76): after an add, reading every record gives the earlier records followed by the added one, whose fields equal the input's |
| `Store.DeleteTwice` | controller.js:50-64 | deleting the same identifier twice yields the record, then null |
| `Store.AddUpdateDelete` | controller.js:4-64 | add, update, delete, then update: the update returns the new fields under the same id, the delete returns the updated record, the late update returns null, and the records and the insertion order are back where they started, so reading everything gives the same result (the identifier counter has moved on) |
| `Cli.AddCommand` | commends.js:43-60 | exits 0 exactly when the connection, the prompt and the add all succeed, printing 'Successfully added auction item:'; otherwise exits 1 with 'Error adding item:' |
| `Cli.FindCommand` | commends.js:62-89 | prompts exactly when connected; exits 0 exactly when the connection, the prompt and the search succeed; on success prints 'No items found' for an empty result and 'Found items:' otherwise; on failure prints 'Error finding items:' |
| `Cli.UpdateCommand` | commends.js:92-125 | a malformed id exits 1 with 'Invalid ID format' before any prompt or update call; any other exit 1 prints 'Error:'; exits 0 exactly when connected, the id is well formed and the prompt resolved, whatever the update returns or throws; a null result prints 'Item not found', a record 'Successfully updated auction item:' and a thrown error 'Error updating item:' |
| `Cli.DeleteCommand` | commends.js:127-143 | never prompts; exits 0 exactly when connected and the delete did not throw, and then prints 'Successfully deleted auction item:' even when the result is null |
| `Cli.UpdateExitIgnoresResult` | commends.js:107-119 | the update command's exit code does not depend on what the update call returns or throws |
| `Cli.DeleteMissingLooksLikeSuccess` | commends.js:134-137 | deleting a missing id gives the same output and exit code as deleting a stored record |
| `Cli.RunUpdate` | commends.js:96-119 | run against a collection, the record with that id gets the four answered fields exactly when the update call is reached, succeeds and finds it; in every other case the records are unchanged; the insertion order never changes; a missing record prints 'Item not found' |
| `Cli.RunDelete` | commends.js:131-142 | run against a collection, a malformed id makes the delete call throw and the command exit 1; the record with that id is removed from the records and the order exactly when the command exits 0, and nothing changes otherwise |

## Left out

- Connecting to and disconnecting from the database (index.js:5-24). A failed connection is the `connected` argument of the command functions. A failing `disconnectDB` is not modelled; the model assumes disconnection succeeds.
- `commander` argument wiring, `inquirer` prompting and `process.exit`. The prompt's result is an argument, and the exit code is a field of `Cli.Run`.
- Console output beyond the fixed message text. The records that follow some messages are not modelled, and neither is the logging inside index.js and controller.js.
- Regular-expression semantics of the database's matcher. `new RegExp(word, 'i')` is only built in JavaScript; `AuctionItems.find` (index.js:42-44) sends the pattern to the MongoDB server, whose regex engine does the matching with Unicode case equivalence. The model matches a piece as a literal string with ASCII case folding. That agrees with the server only for pieces without metacharacters (`\ ^ $ . | ? * + ( ) [ ] { }`) and without non-ASCII letters, matched against fields without non-ASCII letters. For example, the server treats U+212A KELVIN SIGN as a case variant of `k` and U+017F LONG S as one of `s`, so the piece "k" matches a title "\u212A" there but not in the model. A piece that is not a valid pattern, such as `(`, throws a SyntaxError in the source. The model does not capture that.
- MongoDB query evaluation beyond the caller-visible rule above. Array-valued fields and non-string titles cannot arise from the record shape modelled here.
- Store.Collection.AddAuctionItem: a caller-supplied `_id` is ignored, not honoured. Mongoose gives every schema an `_id` path, so `AuctionItems.create` (index.js:28) would store a record under an `_id` the input carries, or throw a duplicate-key or cast error. The model keeps only the four declared fields and always issues a fresh identifier. The command-line answers never carry `_id`.
- Mongoose schema casting and validation. The model does not capture the rejection of an empty required `title`, the rejection of NaN when a Number is cast, or the dropping of `undefined` keys from an update. An update writes the four fields exactly as the input gives them.
- `mongoose.isValidObjectId` and the generation of ObjectIds. The first is a boolean argument. The second is a counter that only grows.
- The order of records returned without a sort is taken to be insertion order.
- Concurrent writers and last-write-wins behaviour belong to the database.
- JavaScript number arithmetic. Only comparisons with 0 are used, and they are exact on the reals plus NaN and the two infinities.

=== FILE: cli.dfy ===
/** What the four commands of the command-line tool (commends.js) print and
    which exit code they end with, as a function of what each awaited step
    produced: whether the connection came up, what the prompt resolved to,
    and what the store call returned or threw. `prompted` and `called` record
    whether the command got as far as the prompt and the store call. */
module Cli {
  import opened Item
  import Validators
  import Store

  /** A line printed by `console.log` or by `console.error`, without the
      record that some of them print after the text. */
  datatype Line = Stdout(text: string) | Stderr(text: string)

  datatype Run = Run(prompted: bool, called: bool, lines: seq<Line>, exitCode: int)

  /** `add`: connect, prompt, add, report. */
  function AddCommand(connected: bool, answers: Result<Validators.Answers>, added: Result<AuctionItem>): (r: Run)
    ensures r.exitCode == 0 <==> connected && answers.Ok? && added.Ok?
    ensures r.exitCode == 0 || r.exitCode == 1
    ensures r.prompted <==> connected
    ensures r.called <==> connected && answers.Ok?
    ensures r.exitCode == 0 ==> r.lines == [Stdout("Successfully added auction item:")]
    ensures r.exitCode == 1 ==> r.lines == [Stderr("Error adding item:")]
  {
    if !connected || answers.Failure? then Run(connected, false, [Stderr("Error adding item:")], 1)
    else if added.Failure? then Run(true, true, [Stderr("Error adding item:")], 1)
    else Run(true, true, [Stdout("Successfully added auction item:")], 0)
  }

  /** `find`: connect, prompt for the search term, search, report. */
  function FindCommand(connected: bool, search: Result<string>, found: Result<seq<AuctionItem>>): (r: Run)
    ensures r.exitCode == 0 <==> connected && search.Ok? && found.Ok?
    ensures r.exitCode == 0 || r.exitCode == 1
    ensures r.prompted <==> connected
    ensures r.called <==> connected && search.Ok?
    ensures r.exitCode == 0 ==> (r.lines == [Stdout("No items found")] <==> found.value == [])
    ensures r.exitCode == 0 && found.value != [] ==> r.lines == [Stdout("Found items:")]
    ensures r.exitCode == 1 ==> r.lines == [Stderr("Error finding items:")]
  {
    if !connected || search.Failure? then Run(connected, false, [Stderr("Error finding items:")], 1)
    else if found.Failure? then Run(true, true, [Stderr("Error finding items:")], 1)
    else if found.value == [] then Run(true, true, [Stdout("No items found")], 0)
    else Run(true, true, [Stdout("Found items:")], 0)
  }

  /** `update <id>`: connect, check the identifier's format, prompt, update,
      report. A failure of the update call itself is caught and reported
      inside the command, which then still exits with 0. */
  function UpdateCommand(connected: bool, idWellFormed: bool, answers: Result<Validators.Answers>,
                         updated: Result<Option<AuctionItem>>): (r: Run)
    ensures r.exitCode == 0 <==> connected && idWellFormed && answers.Ok?
    ensures r.exitCode == 0 || r.exitCode == 1
    ensures r.prompted <==> connected && idWellFormed
    ensures r.called <==> r.exitCode == 0
    ensures connected && !idWellFormed ==> r.lines == [Stderr("Invalid ID format")]
    ensures r.called && updated == Ok(None) ==> r.lines == [Stdout("Item not found")]
    ensures r.called && updated.Failure? ==> r.lines == [Stderr("Error updating item:")]
    ensures r.called && updated.Ok? && updated.value.Some? ==> r.lines == [Stdout("Successfully updated auction item:")]
    ensures r.exitCode == 1 && !(connected && !idWellFormed) ==> r.lines == [Stderr("Error:")]
  {
    if !connected then Run(false, false, [Stderr("Error:")], 1)
    else if !idWellFormed then Run(false, false, [Stderr("Invalid ID format")], 1)
    else if answers.Failure? then Run(true, false, [Stderr("Error:")], 1)
    else
      var line :=
        match updated
        case Failure(_) => Stderr("Error updating item:")
        case Ok(None) => Stdout("Item not found")
        case Ok(Some(_)) => Stdout("Successfully updated auction item:");
      Run(true, true, [line], 0)
  }

  /** `delete <id>`: connect, delete, report. There is no format check and
      no not-found branch: a missing record is reported as deleted. */
  function DeleteCommand(connected: bool, deleted: Result<Option<AuctionItem>>): (r: Run)
    ensures r.exitCode == 0 <==> connected && deleted.Ok?
    ensures r.exitCode == 0 || r.exitCode == 1
    ensures !r.prompted
    ensures r.called <==> connected
    ensures r.exitCode == 0 ==> r.lines == [Stdout("Successfully deleted auction item:")]
    ensures r.exitCode == 1 ==> r.lines == [Stderr("Error deleting item:")]
  {
    if !connected then Run(false, false, [Stderr("Error deleting item:")], 1)
    else if deleted.Failure? then Run(false, true, [Stderr("Error deleting item:")], 1)
    else Run(false, true, [Stdout("Successfully deleted auction item:")], 0)
  }

  /** Whatever the update call answers, the update command's exit code is
      the same: only the connection, the identifier format and the prompt
      decide it. */
  lemma UpdateExitIgnoresResult(connected: bool, idWellFormed: bool, answers: Result<Validators.Answers>,
                                u1: Result<Option<AuctionItem>>, u2: Result<Option<AuctionItem>>)
    ensures UpdateCommand(connected, idWellFormed, answers, u1).exitCode
         == UpdateCommand(connected, idWellFormed, answers, u2).exitCode
  {
  }

  /** Deleting an identifier that is not there reports success, exactly as
      deleting a stored record does. */
  lemma DeleteMissingLooksLikeSuccess(item: AuctionItem)
    ensures DeleteCommand(true, Ok(None)) == DeleteCommand(true, Ok(Some(item)))
    ensures DeleteCommand(true, Ok(None)).exitCode == 0
  {
  }

  /** `update <id>` run against a collection: the store is called only once
      the identifier is well formed and the prompt has resolved, so a
      malformed identifier leaves every record as it was. */
  method RunUpdate(c: Store.Collection, connected: bool, idWellFormed: bool, id: Id,
                   answers: Result<Validators.Answers>, fault: Option<string>) returns (run: Run)
    requires c.Valid()
    modifies c
    ensures c.Valid()
    ensures run.exitCode == 0 <==> connected && idWellFormed && answers.Ok?
    ensures run.called <==> run.exitCode == 0
    ensures run.called && fault.None? && id !in old(c.items) ==> run.lines == [Stdout("Item not found")]
    ensures run.called && fault.Some? ==> run.lines == [Stderr("Error updating item:")]
    ensures c.order == old(c.order) && c.nextId == old(c.nextId)
    ensures c.items == (if run.called && answers.Ok? && fault.None? && id in old(c.items)
                        then old(c.items)[id := Replace(old(c.items)[id], answers.value.AsInput())]
                        else old(c.items))
  {
    var updated: Result<Option<AuctionItem>> := Ok(None);
    if connected && idWellFormed && answers.Ok? {
      updated := c.UpdateAuctionItem(id, answers.value.AsInput(), fault);
    }
    run := UpdateCommand(connected, idWellFormed, answers, updated);
  }

  /** `delete <id>` run against a collection. Nothing checks the format of
      the identifier first: a malformed one makes the delete call throw a
      cast error, which the command reports with exit code 1. */
  method RunDelete(c: Store.Collection, connected: bool, idWellFormed: bool, id: Id, fault: Option<string>)
    returns (run: Run)
    requires c.Valid()
    modifies c
    ensures c.Valid()
    ensures connected && !idWellFormed ==> run.exitCode == 1
    ensures run.exitCode == 0 <==> connected && idWellFormed && fault.None?
    ensures c.nextId == old(c.nextId)
    ensures c.items == (if run.exitCode == 0 then old(c.items) - {id} else old(c.items))
    ensures c.order == (if run.exitCode == 0 then Store.Without(old(c.order), id) else old(c.order))
  {
    var deleted: Result<Option<AuctionItem>> := Ok(None);
    if connected {
      if idWellFormed {
        deleted := c.DeleteAuctionItem(id, fault);
      } else {
        deleted := Failure("Cast to ObjectId failed");
      }
    }
    run := DeleteCommand(connected, deleted);
  }
}

=== FILE: item.dfy ===
/** The shape of an auction-item record (models/AuctionItems.js) and the small
    value types the rest of the model shares. */
module Item {

  datatype Option<+T> = None | Some(value: T)

  /** The outcome of a call that either returns a value or throws; a thrown
      error is kept as its message. */
  datatype Result<+T> = Ok(value: T) | Failure(error: string)

  /** A JavaScript number as far as comparisons with 0 can tell: a finite
      value, one of the two infinities, or NaN (every comparison with NaN is
      false). */
  datatype Num = Finite(value: real) | PosInfinity | NegInfinity | NaN

  /** JavaScript `n >= 0`. */
  predicate AtLeastZero(n: Num) {
    match n
    case Finite(v) => v >= 0.0
    case PosInfinity => true
    case NegInfinity => false
    case NaN => false
  }

  /** JavaScript `n < 0`. */
  predicate BelowZero(n: Num) {
    match n
    case Finite(v) => v < 0.0
    case PosInfinity => false
    case NegInfinity => true
    case NaN => false
  }

  /** JavaScript's `<` and `>=` are complements on every number except NaN. */
  lemma BelowZeroIsNotAtLeastZero(n: Num)
    ensures n != NaN ==> (BelowZero(n) <==> !AtLeastZero(n))
    ensures n == NaN ==> !BelowZero(n) && !AtLeastZero(n)
  {
  }

  /** The identifier the storage engine assigns on creation. */
  type Id = nat

  /** A stored record: `title` is required, the other three fields may be
      absent. */
  datatype AuctionItem = AuctionItem(
    id: Id,
    title: string,
    description: Option<string>,
    startPrice: Option<Num>,
    reservePrice: Option<Num>)

  /** What a caller hands to add or update: the four schema fields plus any
      other properties the caller's object happens to carry. */
  datatype Input = Input(
    title: string,
    description: Option<string>,
    startPrice: Option<Num>,
    reservePrice: Option<Num>,
    others: map<string, string>)

  /** The record that storing `input` under `id` produces: the four declared
      fields are kept and every other input property is dropped, including
      an `_id`, which the model does not honour. */
  function Create(id: Id, input: Input): (r: AuctionItem)
    ensures r.id == id && r.title == input.title && r.description == input.description
    ensures r.startPrice == input.startPrice && r.reservePrice == input.reservePrice
  {
    AuctionItem(id, input.title, input.description, input.startPrice, input.reservePrice)
  }

  /** The record a full update of `item` with `input` produces. */
  function Replace(item: AuctionItem, input: Input): (r: AuctionItem)
    ensures r.id == item.id
    ensures r == Create(item.id, input)
  {
    item.(title := input.title, description := input.description,
          startPrice := input.startPrice, reservePrice := input.reservePrice)
  }

  /** An update ignores every input property other than the four schema
      fields, and what it leaves behind does not depend on the old fields. */
  lemma ReplaceProjectsFourFields(item: AuctionItem, other: AuctionItem, input: Input, extra: map<string, string>)
    requires other.id == item.id
    ensures Replace(item, input.(others := extra)) == Replace(other, input)
    ensures Replace(Replace(item, input), input) == Replace(item, input)
  {
  }
}

=== FILE: search.dfy ===
/** Search-term construction and the match rule of `findAuctionItem`
    (index.js, controller.js): the query is cut at every space character,
    each piece becomes a case-insensitive matcher, and a record is found when
    any piece occurs in its title or in its description. A piece is matched
    as a literal string with ASCII case folding. */
module Search {
  import opened Item

  const Space: char := ' '

  // ---------------------------------------------------------------------------
  // `keywords.split(' ')`

  function SpaceCount(s: string): nat {
    if s == [] then 0 else (if s[0] == Space then 1 else 0) + SpaceCount(s[1..])
  }

  /** JavaScript `s.split(' ')`: the pieces between consecutive space
      characters, always at least one, none containing a space. */
  function Split(s: string): (r: seq<string>)
    ensures |r| >= 1
    ensures forall i :: 0 <= i < |r| ==> Space !in r[i]
  {
    if s == [] then [[]]
    else if s[0] == Space then [[]] + Split(s[1..])
    else
      var rest := Split(s[1..]);
      [[s[0]] + rest[0]] + rest[1..]
  }

  /** JavaScript `ts.join(' ')`. */
  function Join(ts: seq<string>): string {
    if ts == [] then []
    else if |ts| == 1 then ts[0]
    else ts[0] + [Space] + Join(ts[1..])
  }

  lemma {:induction false} JoinConsChar(c: char, ts: seq<string>)
    requires |ts| >= 1
    ensures Join([[c] + ts[0]] + ts[1..]) == [c] + Join(ts)
  {
    var ts' := [[c] + ts[0]] + ts[1..];
    assert ts'[0] == [c] + ts[0] && ts'[1..] == ts[1..] && |ts'| == |ts|;
    if |ts| > 1 {
      var tail := [Space] + Join(ts[1..]);
      assert Join(ts) == ts[0] + tail;
      assert Join(ts') == ([c] + ts[0]) + tail;
    }
  }

  /** Joining the pieces with a space gives the query back. */
  lemma {:induction false} JoinSplit(s: string)
    ensures Join(Split(s)) == s
  {
    if s == [] {
    } else if s[0] == Space {
      JoinSplit(s[1..]);
      var rest := Split(s[1..]);
      assert ([[]] + rest)[1..] == rest;
    } else {
      JoinSplit(s[1..]);
      JoinConsChar(s[0], Split(s[1..]));
      assert s == [s[0]] + s[1..];
    }
  }

  /** There is one more piece than there are spaces. */
  lemma {:induction false} SplitLength(s: string)
    ensures |Split(s)| == SpaceCount(s) + 1
  {
    if s != [] {
      SplitLength(s[1..]);
    }
  }

  /** Cutting at a space splits the pieces there: a query extended by a space
      and more words has the old pieces followed by the new ones. */
  lemma {:induction false} SplitAppend(a: string, b: string)
    ensures Split(a + [Space] + b) == Split(a) + Split(b)
  {
    var s := a + [Space] + b;
    if a == [] {
      assert s[1..] == b;
    } else if a[0] == Space {
      assert s[1..] == a[1..] + [Space] + b;
      SplitAppend(a[1..], b);
    } else {
      assert s[1..] == a[1..] + [Space] + b;
      SplitAppend(a[1..], b);
      var A, B := Split(a[1..]), Split(b);
      assert (A + B)[0] == A[0];
      assert (A + B)[1..] == A[1..] + B;
    }
  }

  lemma {:induction false} SplitWithoutSpace(s: string)
    requires Space !in s
    ensures Split(s) == [s]
  {
    if s != [] {
      assert Space !in s[1..] by {
        forall i | 0 <= i < |s[1..]| ensures s[1..][i] != Space {
          assert s[1..][i] == s[i + 1];
        }
      }
      SplitWithoutSpace(s[1..]);
      assert s == [s[0]] + s[1..];
    }
  }

  /** The other round trip: space-free pieces joined with a space split back
      into the same pieces. */
  lemma {:induction false} SplitJoin(ts: seq<string>)
    requires |ts| >= 1
    requires forall i :: 0 <= i < |ts| ==> Space !in ts[i]
    ensures Split(Join(ts)) == ts
  {
    if |ts| == 1 {
      SplitWithoutSpace(ts[0]);
    } else {
      SplitAppend(ts[0], Join(ts[1..]));
      SplitWithoutSpace(ts[0]);
      SplitJoin(ts[1..]);
      assert ts == [ts[0]] + ts[1..];
    }
  }

  // ---------------------------------------------------------------------------
  // Empty pieces

  /** The query is empty, starts or ends with a space, or has two spaces in a
      row. */
  predicate HasEmptyPiece(s: string) {
    || s == []
    || s[0] == Space
    || s[|s| - 1] == Space
    || exists i :: 0 <= i < |s| - 1 && s[i] == Space && s[i + 1] == Space
  }

  lemma EmptyPieceFromShape(s: string)
    requires HasEmptyPiece(s)
    ensures [] in Split(s)
  {
    if s == [] || s[0] == Space {
    } else if s[|s| - 1] == Space {
      var a := s[..|s| - 1];
      assert s == a + [Space] + [];
      SplitAppend(a, []);
      assert Split(s)[|Split(s)| - 1] == [];
    } else {
      var i :| 0 <= i < |s| - 1 && s[i] == Space && s[i + 1] == Space;
      var a, b := s[..i], s[i + 1..];
      assert s == a + [Space] + b;
      SplitAppend(a, b);
      assert b[0] == Space;
      assert Split(s)[|Split(a)|] == Split(b)[0] == [];
    }
  }

  lemma {:induction false} NoEmptyPieceFromShape(s: string)
    requires !HasEmptyPiece(s)
    ensures [] !in Split(s)
  {
    var t := s[1..];
    if t == [] {
      assert s[0] != Space;
      var rest := Split(t);
      assert rest == [[]];
      assert Split(s) == [[s[0]] + rest[0]] + rest[1..];
    } else if t[0] == Space {
      var u := t[1..];
      assert u != [] && u[0] != Space by {
        assert s[1] == Space;
        assert s[|s| - 1] == u[|u| - 1] || u == [];
        assert u != [] ==> s[2] == u[0];
      }
      assert !HasEmptyPiece(u) by {
        forall i | 0 <= i < |u| - 1
          ensures !(u[i] == Space && u[i + 1] == Space)
        {
          assert u[i] == s[i + 2] && u[i + 1] == s[i + 3];
        }
        assert u[|u| - 1] == s[|s| - 1];
      }
      NoEmptyPieceFromShape(u);
      assert Split(t) == [[]] + Split(u);
      var rest := Split(t);
      assert rest[0] == [] && rest[1..] == Split(u);
      assert Split(s) == [[s[0]] + rest[0]] + rest[1..];
    } else {
      assert !HasEmptyPiece(t) by {
        forall i | 0 <= i < |t| - 1
          ensures !(t[i] == Space && t[i + 1] == Space)
        {
          assert t[i] == s[i + 1] && t[i + 1] == s[i + 2];
        }
        assert t[|t| - 1] == s[|s| - 1];
      }
      NoEmptyPieceFromShape(t);
      var rest := Split(t);
      assert Split(s) == [[s[0]] + rest[0]] + rest[1..];
      assert forall j :: 1 <= j < |rest| ==> rest[j] in rest;
    }
  }

  /** A query yields an empty piece exactly when it is empty, starts or ends
      with a space, or holds two adjacent spaces. */
  lemma EmptyPieceIff(s: string)
    ensures [] in Split(s) <==> HasEmptyPiece(s)
  {
    if HasEmptyPiece(s) {
      EmptyPieceFromShape(s);
    } else {
      NoEmptyPieceFromShape(s);
    }
  }

  // ---------------------------------------------------------------------------
  // Case-insensitive literal matching: `new RegExp(word, 'i')`

  /** ASCII case folding. */
  function Lower(c: char): char {
    if 'A' <= c <= 'Z' then (c as int + 32) as char else c
  }

  function Upper(c: char): char {
    if 'a' <= c <= 'z' then (c as int - 32) as char else c
  }

  function Fold(s: string): (r: string)
    ensures |r| == |s|
    ensures forall i :: 0 <= i < |s| ==> r[i] == Lower(s[i])
  {
    seq(|s|, i requires 0 <= i < |s| => Lower(s[i]))
  }

  function UpperCase(s: string): (r: string)
    ensures |r| == |s|
    ensures forall i :: 0 <= i < |s| ==> r[i] == Upper(s[i])
  {
    seq(|s|, i requires 0 <= i < |s| => Upper(s[i]))
  }

  /** `p` occurs somewhere in `s` (the regular expression scans every start
      position). */
  predicate Contains(s: string, p: string) {
    p <= s || (s != [] && Contains(s[1..], p))
  }

  /** `p` sits in `s` starting at position `k`. */
  predicate OccursAt(s: string, p: string, k: nat) {
    k + |p| <= |s| && s[k..k + |p|] == p
  }

  /** The scan finds `p` exactly when `p` sits in `s` at some position. */
  lemma {:induction false} ContainsAt(s: string, p: string)
    ensures Contains(s, p) <==> exists k: nat :: OccursAt(s, p, k)
  {
    if p <= s {
      assert OccursAt(s, p, 0);
    } else if s == [] {
    } else {
      ContainsAt(s[1..], p);
      if Contains(s[1..], p) {
        var k: nat :| OccursAt(s[1..], p, k);
        assert s[1..][k..k + |p|] == s[k + 1..k + 1 + |p|];
        assert OccursAt(s, p, k + 1);
      }
      if k: nat :| OccursAt(s, p, k) && k > 0 {
        assert s[1..][k - 1..k - 1 + |p|] == s[k..k + |p|];
        assert OccursAt(s[1..], p, k - 1);
      }
    }
  }

  /** A literal piece `token` matches `field`, ignoring ASCII case. */
  predicate TokenMatches(token: string, field: string) {
    Contains(Fold(field), Fold(token))
  }

  /** `{ field: { $in: tokens } }`: some piece matches the field. */
  predicate AnyTokenMatches(tokens: seq<string>, field: string) {
    tokens != [] && (TokenMatches(tokens[0], field) || AnyTokenMatches(tokens[1..], field))
  }

  lemma {:induction false} AnyTokenMatchesIff(tokens: seq<string>, field: string)
    ensures AnyTokenMatches(tokens, field) <==> exists i :: 0 <= i < |tokens| && TokenMatches(tokens[i], field)
  {
    if tokens != [] {
      AnyTokenMatchesIff(tokens[1..], field);
      if exists i :: 0 <= i < |tokens| && TokenMatches(tokens[i], field) {
        var i :| 0 <= i < |tokens| && TokenMatches(tokens[i], field);
        if i > 0 {
          assert tokens[1..][i - 1] == tokens[i];
        }
      }
    }
  }

  /** `{ $or: [{ title: { $in: tokens } }, { description: { $in: tokens } }] }`;
      a record without a description can only match on its title. */
  predicate RecordMatches(tokens: seq<string>, item: AuctionItem) {
    || AnyTokenMatches(tokens, item.title)
    || (item.description.Some? && AnyTokenMatches(tokens, item.description.value))
  }

  /** The records of `items` the query selects, in their stored order. */
  function Filter(items: seq<AuctionItem>, tokens: seq<string>): (r: seq<AuctionItem>)
    ensures |r| <= |items|
    ensures forall x :: x in r <==> x in items && RecordMatches(tokens, x)
  {
    if items == [] then []
    else (if RecordMatches(tokens, items[0]) then [items[0]] else []) + Filter(items[1..], tokens)
  }

  /** Each matching record occurs in the result exactly as often as in the
      input, and no other record occurs: nothing is duplicated or dropped. */
  lemma {:induction false} FilterCounts(items: seq<AuctionItem>, tokens: seq<string>)
    ensures forall x :: multiset(Filter(items, tokens))[x] == (if RecordMatches(tokens, x) then multiset(items)[x] else 0)
  {
    if items != [] {
      FilterCounts(items[1..], tokens);
      var head := if RecordMatches(tokens, items[0]) then [items[0]] else [];
      assert items == [items[0]] + items[1..];
      assert multiset(Filter(items, tokens)) == multiset(head) + multiset(Filter(items[1..], tokens));
    }
  }

  /** Filtering keeps the stored order: the matches of a concatenation are the
      matches of its first part followed by those of its second. */
  lemma {:induction false} FilterAppend(a: seq<AuctionItem>, b: seq<AuctionItem>, tokens: seq<string>)
    ensures Filter(a + b, tokens) == Filter(a, tokens) + Filter(b, tokens)
  {
    if a != [] {
      var head := if RecordMatches(tokens, a[0]) then [a[0]] else [];
      assert (a + b)[0] == a[0] && (a + b)[1..] == a[1..] + b;
      assert Filter(a + b, tokens) == head + Filter(a[1..] + b, tokens);
      assert Filter(a, tokens) == head + Filter(a[1..], tokens);
      FilterAppend(a[1..], b, tokens);
    } else {
      assert a + b == b;
    }
  }

  /** `findAuctionItem(keywords)` over the records `items`. */
  function Find(items: seq<AuctionItem>, keywords: string): seq<AuctionItem> {
    Filter(items, Split(keywords))
  }

  // ---------------------------------------------------------------------------
  // Properties of the match rule

  /** A record is found exactly when some piece of the query occurs in its
      title, or some piece occurs in its description. */
  lemma FindIff(items: seq<AuctionItem>, keywords: string, x: AuctionItem)
    ensures x in Find(items, keywords) <==>
      x in items &&
      ((exists i :: 0 <= i < |Split(keywords)| && TokenMatches(Split(keywords)[i], x.title))
       || (x.description.Some? &&
           exists i :: 0 <= i < |Split(keywords)| && TokenMatches(Split(keywords)[i], x.description.value)))
  {
    assert x in Find(items, keywords) <==> x in items && RecordMatches(Split(keywords), x);
    AnyTokenMatchesIff(Split(keywords), x.title);
    if x.description.Some? {
      AnyTokenMatchesIff(Split(keywords), x.description.value);
    }
  }

  /** An empty piece occurs in every string. */
  lemma EmptyTokenMatchesAll(tokens: seq<string>, field: string)
    requires [] in tokens
    ensures AnyTokenMatches(tokens, field)
  {
    var i :| 0 <= i < |tokens| && tokens[i] == [];
    assert Fold([]) == [] && [] <= Fold(field);
    assert TokenMatches(tokens[i], field);
    AnyTokenMatchesIff(tokens, field);
  }

  lemma {:induction false} FilterKeepsAll(items: seq<AuctionItem>, tokens: seq<string>)
    requires forall x :: x in items ==> RecordMatches(tokens, x)
    ensures Filter(items, tokens) == items
  {
    if items != [] {
      FilterKeepsAll(items[1..], tokens);
      assert items == [items[0]] + items[1..];
    }
  }

  /** A blank query, or one with a leading, trailing or doubled space, finds
      every record (every record has a title). */
  lemma BlankQueryFindsAll(items: seq<AuctionItem>, keywords: string)
    requires HasEmptyPiece(keywords)
    ensures Find(items, keywords) == items
  {
    EmptyPieceIff(keywords);
    forall x | x in items ensures RecordMatches(Split(keywords), x) {
      EmptyTokenMatchesAll(Split(keywords), x.title);
    }
    FilterKeepsAll(items, Split(keywords));
  }

  lemma {:induction false} FilterNone(items: seq<AuctionItem>, tokens: seq<string>)
    requires forall x :: x in items ==> !RecordMatches(tokens, x)
    ensures Filter(items, tokens) == []
  {
    if items != [] {
      assert items[0] in items;
      FilterNone(items[1..], tokens);
    }
  }

  /** When no record matches, the search result is empty rather than an
      error. */
  lemma NoMatchFindsNothing(items: seq<AuctionItem>, keywords: string)
    requires forall x :: x in items ==> !RecordMatches(Split(keywords), x)
    ensures Find(items, keywords) == []
  {
    FilterNone(items, Split(keywords));
  }

  /** More pieces can only widen what is found: a query extended by a space
      and further words finds everything the shorter query finds. */
  lemma MoreTokensWiden(items: seq<AuctionItem>, keywords: string, more: string, x: AuctionItem)
    requires x in Find(items, keywords)
    ensures x in Find(items, keywords + [Space] + more)
  {
    var ts, us := Split(keywords), Split(more);
    SplitAppend(keywords, more);
    assert Split(keywords + [Space] + more) == ts + us;
    FindIff(items, keywords, x);
    FindIff(items, keywords + [Space] + more, x);
    if exists i :: 0 <= i < |ts| && TokenMatches(ts[i], x.title) {
      var i :| 0 <= i < |ts| && TokenMatches(ts[i], x.title);
      assert (ts + us)[i] == ts[i];
    } else {
      var i :| 0 <= i < |ts| && TokenMatches(ts[i], x.description.value);
      assert (ts + us)[i] == ts[i];
    }
  }

  // ---------------------------------------------------------------------------
  // Case-insensitivity

  function FoldAll(ts: seq<string>): (r: seq<string>)
    ensures |r| == |ts|
    ensures forall i :: 0 <= i < |ts| ==> r[i] == Fold(ts[i])
  {
    seq(|ts|, i requires 0 <= i < |ts| => Fold(ts[i]))
  }

  lemma FoldAppend(a: string, b: string)
    ensures Fold(a + b) == Fold(a) + Fold(b)
  {
  }

  lemma FoldAllAppend(a: seq<string>, b: seq<string>)
    ensures FoldAll(a + b) == FoldAll(a) + FoldAll(b)
  {
  }

  /** Folding case and cutting at spaces commute, because a space is its own
      fold and nothing else folds to a space. */
  lemma {:induction false} SplitFold(s: string)
    ensures Split(Fold(s)) == FoldAll(Split(s))
  {
    if s != [] {
      var c, t := s[0], s[1..];
      assert s == [c] + t;
      FoldAppend([c], t);
      var f := Fold(s);
      assert f[0] == Lower(c) && f[1..] == Fold(t);
      SplitFold(t);
      var P := Split(t);
      var R := Split(Fold(t));
      assert R == FoldAll(P);
      if c == Space {
        assert Split(f) == [[]] + R;
        assert Split(s) == [[]] + P;
        FoldAllAppend([[]], P);
      } else {
        assert Lower(c) != Space;
        assert Split(f) == [[Lower(c)] + R[0]] + R[1..];
        assert Split(s) == [[c] + P[0]] + P[1..];
        FoldAllAppend([[c] + P[0]], P[1..]);
        FoldAppend([c], P[0]);
        assert Fold([c]) == [Lower(c)];
        assert FoldAll([[c] + P[0]]) == [Fold([c] + P[0])];
        assert R[0] == Fold(P[0]);
        assert R[1..] == FoldAll(P[1..]);
        assert FoldAll(Split(s)) == [[Lower(c)] + R[0]] + R[1..];
      }
    }
  }

  lemma {:induction false} AnyTokenMatchesFoldInvariant(ts: seq<string>, us: seq<string>, field: string)
    requires FoldAll(ts) == FoldAll(us)
    ensures AnyTokenMatches(ts, field) == AnyTokenMatches(us, field)
  {
    if ts != [] {
      assert Fold(ts[0]) == FoldAll(ts)[0] == FoldAll(us)[0] == Fold(us[0]);
      assert FoldAll(ts[1..]) == FoldAll(ts)[1..];
      assert FoldAll(us[1..]) == FoldAll(us)[1..];
      AnyTokenMatchesFoldInvariant(ts[1..], us[1..], field);
    }
  }

  lemma {:induction false} FilterFoldInvariant(items: seq<AuctionItem>, ts: seq<string>, us: seq<string>)
    requires FoldAll(ts) == FoldAll(us)
    ensures Filter(items, ts) == Filter(items, us)
  {
    if items != [] {
      AnyTokenMatchesFoldInvariant(ts, us, items[0].title);
      if items[0].description.Some? {
        AnyTokenMatchesFoldInvariant(ts, us, items[0].description.value);
      }
      FilterFoldInvariant(items[1..], ts, us);
    }
  }

  /** Two queries that differ only in the letter case of ASCII letters find
      the same records, in the same order. */
  lemma FindIgnoresCase(items: seq<AuctionItem>, q1: string, q2: string)
    requires Fold(q1) == Fold(q2)
    ensures Find(items, q1) == Find(items, q2)
  {
    SplitFold(q1);
    SplitFold(q2);
    FilterFoldInvariant(items, Split(q1), Split(q2));
  }

  /** In particular an upper-cased query finds what the query finds. */
  lemma FindUpperCase(items: seq<AuctionItem>, keywords: string)
    ensures Find(items, UpperCase(keywords)) == Find(items, keywords)
  {
    assert Fold(UpperCase(keywords)) == Fold(keywords);
    FindIgnoresCase(items, UpperCase(keywords), keywords);
  }

  lemma GoldInRing()
    ensures TokenMatches("gold", "Gold Ring")
  {
    var f := Fold("Gold Ring");
    assert f[0] == 'g' && f[1] == 'o' && f[2] == 'l' && f[3] == 'd';
    assert Fold("gold") == "gold";
    assert "gold" <= f;
  }

  lemma GoldInNecklace()
    ensures TokenMatches("gold", "Silver Gold Necklace")
  {
    var f := Fold("Silver Gold Necklace");
    assert f[7] == 'g' && f[8] == 'o' && f[9] == 'l' && f[10] == 'd';
    assert Fold("gold") == "gold";
    assert OccursAt(f, "gold", 7);
    ContainsAt(f, "gold");
  }

  /** A worked example: "gold" finds both a "Gold Ring" and a "Silver Gold
      Necklace", and so does "GOLD". */
  lemma GoldExample(ring: AuctionItem, necklace: AuctionItem)
    requires ring.title == "Gold Ring" && necklace.title == "Silver Gold Necklace"
    ensures Find([ring, necklace], "gold") == [ring, necklace]
    ensures Find([ring, necklace], "GOLD") == [ring, necklace]
  {
    SplitWithoutSpace("gold");
    GoldInRing();
    GoldInNecklace();
    assert AnyTokenMatches(["gold"], ring.title);
    assert AnyTokenMatches(["gold"], necklace.title);
    FilterKeepsAll([ring, necklace], ["gold"]);
    assert Fold("GOLD") == Fold("gold");
    FindIgnoresCase([ring, necklace], "GOLD", "gold");
  }
}

=== FILE: store.dfy ===
/** The auction-item collection as the callers of `addAuctionItem`,
    `findAuctionItem`, `updateAuctionItem`, `deleteAuctionItem` and
    `getAllItems` see it (index.js, controller.js). The storage engine is
    replaced by a map from identifier to record plus the order in which the
    records were inserted; a storage failure is an argument `fault` that,
    when present, is handed back unchanged and leaves the collection as it
    was. */
module Store {
  import opened Item
  import Search

  /** No identifier occurs twice. */
  predicate Distinct(ids: seq<Id>) {
    forall i, j :: 0 <= i < j < |ids| ==> ids[i] != ids[j]
  }

  /** `ids` with every occurrence of `id` taken out. */
  function Without(ids: seq<Id>, id: Id): (r: seq<Id>)
    ensures forall x :: x in r <==> x in ids && x != id
    ensures Distinct(ids) ==> Distinct(r)
  {
    if ids == [] then []
    else if ids[0] == id then Without(ids[1..], id)
    else
      var rest := Without(ids[1..], id);
      assert Distinct(ids) ==> ids[0] !in ids[1..];
      [ids[0]] + rest
  }

  /** Taking out an identifier that is not there changes nothing. */
  lemma {:induction false} WithoutAbsent(ids: seq<Id>, id: Id)
    requires id !in ids
    ensures Without(ids, id) == ids
  {
    if ids != [] {
      assert id !in ids[1..];
      WithoutAbsent(ids[1..], id);
      assert ids == [ids[0]] + ids[1..];
    }
  }

  /** Removal keeps the relative order of what stays: taking an identifier
      out of a concatenation takes it out of each part in place. */
  lemma {:induction false} WithoutAppend(a: seq<Id>, b: seq<Id>, id: Id)
    ensures Without(a + b, id) == Without(a, id) + Without(b, id)
  {
    if a != [] {
      assert (a + b)[0] == a[0] && (a + b)[1..] == a[1..] + b;
      WithoutAppend(a[1..], b, id);
    } else {
      assert a + b == b;
    }
  }

  /** Taking out an identifier that sits once between two runs of others
      joins the two runs, each in its old order. */
  lemma {:induction false} WithoutMiddle(a: seq<Id>, b: seq<Id>, id: Id)
    requires id !in a && id !in b
    ensures Without(a + [id] + b, id) == a + b
  {
    WithoutAppend(a + [id], b, id);
    WithoutLast(a, id);
    WithoutAbsent(b, id);
  }

  /** Taking out the identifier just appended gives back the earlier order. */
  lemma {:induction false} WithoutLast(ids: seq<Id>, id: Id)
    requires id !in ids
    ensures Without(ids + [id], id) == ids
  {
    if ids != [] {
      assert (ids + [id])[1..] == ids[1..] + [id];
      assert id !in ids[1..];
      WithoutLast(ids[1..], id);
      assert ids == [ids[0]] + ids[1..];
    } else {
      assert [] + [id] == [id];
    }
  }

  /** The records stored under `ids`, in that order. */
  function Records(ids: seq<Id>, items: map<Id, AuctionItem>): (r: seq<AuctionItem>)
    requires forall i :: 0 <= i < |ids| ==> ids[i] in items
    ensures |r| == |ids|
    ensures forall i :: 0 <= i < |ids| ==> r[i] == items[ids[i]]
  {
    seq(|ids|, i requires 0 <= i < |ids| => items[ids[i]])
  }

  class Collection {
    /** The stored records by identifier. */
    var items: map<Id, AuctionItem>
    /** The identifiers in insertion order: the order the engine returns
        records in when no sort is asked for. */
    var order: seq<Id>
    /** The next identifier to issue; identifiers are never reused. */
    var nextId: Id

    ghost predicate Valid()
      reads this
    {
      && (forall id :: id in items ==> items[id].id == id && id < nextId)
      && (forall id :: id in items <==> id in order)
      && Distinct(order)
    }

    /** Every stored record, in insertion order. */
    function All(): (r: seq<AuctionItem>)
      reads this
      requires Valid()
      ensures |r| == |items|
      ensures forall x :: x in r <==> x.id in items && items[x.id] == x
    {
      DistinctCard(order, items.Keys);
      var r := Records(order, items);
      assert forall x :: x in r ==> x.id in items && items[x.id] == x;
      assert forall id :: id in items ==> items[id] in r by {
        forall id | id in items ensures items[id] in r {
          var i :| 0 <= i < |order| && order[i] == id;
          assert r[i] == items[id];
        }
      }
      r
    }

    constructor ()
      ensures Valid()
      ensures items == map[] && order == [] && All() == []
    {
      items, order, nextId := map[], [], 0;
    }

    /** `addAuctionItem(item)`: stores a record made of the input's four schema
        fields under a fresh identifier and returns it. */
    method AddAuctionItem(input: Input, fault: Option<string>) returns (r: Result<AuctionItem>)
      requires Valid()
      modifies this
      ensures Valid()
      ensures fault.Some? ==> r == Failure(fault.value) && items == old(items) && order == old(order)
      ensures fault.None? ==> r.Ok? && r.value == Create(r.value.id, input)
      ensures fault.None? ==> r.value.id !in old(items) && r.value.id >= old(nextId)
      ensures nextId >= old(nextId)
      ensures fault.None? ==> items == old(items)[r.value.id := r.value] && order == old(order) + [r.value.id]
    {
      if fault.Some? {
        return Failure(fault.value);
      }
      var id := nextId;
      var item := Create(id, input);
      items := items[id := item];
      order := order + [id];
      nextId := nextId + 1;
      r := Ok(item);
    }

    /** `findAuctionItem(keywords)`: the stored records the query selects, in
        insertion order. */
    method FindAuctionItem(keywords: string, fault: Option<string>) returns (r: Result<seq<AuctionItem>>)
      requires Valid()
      ensures fault.Some? ==> r == Failure(fault.value)
      ensures fault.None? ==> r == Ok(Search.Find(All(), keywords))
      ensures fault.None? ==> forall x :: x in r.value <==> x in All() && Search.RecordMatches(Search.Split(keywords), x)
    {
      if fault.Some? {
        return Failure(fault.value);
      }
      r := Ok(Search.Find(All(), keywords));
    }

    /** `updateAuctionItem(id, item)`: replaces exactly the four schema fields
        of the record with identifier `id` and returns the new record, or
        returns nothing when no record has that identifier. */
    method UpdateAuctionItem(id: Id, input: Input, fault: Option<string>) returns (r: Result<Option<AuctionItem>>)
      requires Valid()
      modifies this
      ensures Valid()
      ensures order == old(order) && nextId == old(nextId)
      ensures fault.Some? ==> r == Failure(fault.value) && items == old(items)
      ensures fault.None? && id !in old(items) ==> r == Ok(None) && items == old(items)
      ensures fault.None? && id in old(items) ==>
        && r == Ok(Some(Replace(old(items)[id], input)))
        && r.value.value.id == id
        && items == old(items)[id := r.value.value]
    {
      if fault.Some? {
        return Failure(fault.value);
      }
      if id !in items {
        return Ok(None);
      }
      var updated := Replace(items[id], input);
      items := items[id := updated];
      r := Ok(Some(updated));
    }

    /** `deleteAuctionItem(id)`: removes the record with identifier `id` and
        returns it, or returns nothing when no record has that identifier. */
    method DeleteAuctionItem(id: Id, fault: Option<string>) returns (r: Result<Option<AuctionItem>>)
      requires Valid()
      modifies this
      ensures Valid()
      ensures nextId == old(nextId)
      ensures fault.Some? ==> r == Failure(fault.value) && items == old(items) && order == old(order)
      ensures fault.None? && id !in old(items) ==> r == Ok(None) && items == old(items) && order == old(order)
      ensures fault.None? ==> items == old(items) - {id} && order == Without(old(order), id)
      ensures fault.None? && id in old(items) ==>
        && r == Ok(Some(old(items)[id]))
        && items == old(items) - {id}
        && order == Without(old(order), id)
    {
      if fault.Some? {
        return Failure(fault.value);
      }
      if id !in items {
        WithoutAbsent(order, id);
        assert items - {id} == items;
        return Ok(None);
      }
      r := Ok(Some(items[id]));
      items := items - {id};
      order := Without(order, id);
    }

    /** `getAllItems()`: every stored record, unfiltered; empty when the
        collection is. */
    method GetAllItems(fault: Option<string>) returns (r: Result<seq<AuctionItem>>)
      requires Valid()
      ensures fault.Some? ==> r == Failure(fault.value)
      ensures fault.None? ==> r.Ok? && r.value == All()
      ensures fault.None? ==> |r.value| == |items| && (r.value == [] <==> items == map[])
      ensures fault.None? ==> forall id :: id in items ==> items[id] in r.value
    {
      if fault.Some? {
        return Failure(fault.value);
      }
      r := Ok(All());
    }
  }

  /** A duplicate-free sequence holding exactly the elements of a set is as
      long as the set is large. */
  lemma {:induction false} DistinctCard(ids: seq<Id>, keys: set<Id>)
    requires Distinct(ids)
    requires forall id :: id in keys <==> id in ids
    ensures |ids| == |keys|
  {
    if ids != [] {
      var rest := ids[1..];
      assert Distinct(rest);
      assert ids[0] !in rest;
      forall id ensures id in keys - {ids[0]} <==> id in rest {
        if id in rest {
          var j :| 0 <= j < |rest| && rest[j] == id;
          assert ids[j + 1] == id;
        }
      }
      DistinctCard(rest, keys - {ids[0]});
    } else {
      assert keys == {};
    }
  }

  /** Deleting the same identifier twice returns the record, then nothing. */
  method DeleteTwice(c: Collection, id: Id) returns (first: Result<Option<AuctionItem>>, second: Result<Option<AuctionItem>>)
    requires c.Valid() && id in c.items
    modifies c
    ensures c.Valid()
    ensures first == Ok(Some(old(c.items)[id]))
    ensures second == Ok(None)
    ensures c.items == old(c.items) - {id}
  {
    first := c.DeleteAuctionItem(id, None);
    second := c.DeleteAuctionItem(id, None);
  }

  /** Adding a record and then reading everything gives the earlier
      contents followed by the new record. */
  method AddThenGetAll(c: Collection, input: Input) returns (added: Result<AuctionItem>, all: Result<seq<AuctionItem>>)
    requires c.Valid()
    modifies c
    ensures c.Valid()
    ensures added.Ok? && added.value == Create(added.value.id, input)
    ensures all == Ok(old(c.All()) + [added.value])
  {
    ghost var before := c.All();
    added := c.AddAuctionItem(input, None);
    assert Records(c.order, c.items) == before + [added.value];
    all := c.GetAllItems(None);
  }

  /** Add a record, update it, delete it, then try to update it again: the
      update returns the new fields under the same identifier, the delete
      returns that updated record, the late update finds nothing, and the
      collection ends where it began. */
  method AddUpdateDelete(c: Collection, first: Input, second: Input)
    returns (added: Result<AuctionItem>, updated: Result<Option<AuctionItem>>,
             deleted: Result<Option<AuctionItem>>, late: Result<Option<AuctionItem>>)
    requires c.Valid()
    modifies c
    ensures c.Valid()
    ensures added.Ok? && added.value == Create(added.value.id, first)
    ensures updated == Ok(Some(Create(added.value.id, second)))
    ensures deleted == updated
    ensures late == Ok(None)
    ensures c.items == old(c.items) && c.order == old(c.order)
    ensures c.All() == old(c.All())
  {
    ghost var m, o := c.items, c.order;
    added := c.AddAuctionItem(first, None);
    var id := added.value.id;
    assert id !in m && c.items == m[id := added.value] && c.order == o + [id];
    assert id !in o;
    updated := c.UpdateAuctionItem(id, second, None);
    assert c.items == m[id := Create(id, second)];
    deleted := c.DeleteAuctionItem(id, None);
    assert c.items == m[id := Create(id, second)] - {id};
    assert c.items == m;
    WithoutLast(o, id);
    assert c.order == o;
    late := c.UpdateAuctionItem(id, second, None);
  }
}

=== FILE: validators.dfy ===
/** The four `validate` callbacks of the CLI prompt questions (commends.js).
    Each returns `true` or a fixed message; `Accept` stands for `true`. */
module Validators {
  import opened Item

  datatype Verdict = Accept | Reject(message: string)

  const TitleMessage: string := "Title must be at least 3 characters"
  const DescriptionMessage: string := "Description is required"
  const PriceMessage: string := "Price must be non-negative"

  // ---------------------------------------------------------------------------
  // Title: `input.length >= 3`

  /** Number of UTF-16 code units `c` takes: JavaScript's `length` counts a
      character outside the Basic Multilingual Plane twice. */
  function CodeUnits(c: char): (n: nat)
    ensures 1 <= n <= 2
  {
    if c as int >= 0x1_0000 then 2 else 1
  }

  /** The positions of `s` that hold a character outside the Basic
      Multilingual Plane. */
  function AstralPositions(s: string): set<nat> {
    set i: nat | i < |s| && s[i] as int >= 0x1_0000
  }

  /** JavaScript `s.length`: one code unit per character plus one more for
      every character outside the Basic Multilingual Plane. */
  function JsLength(s: string): (n: nat)
    ensures |s| <= n <= 2 * |s|
    ensures n == |s| + |AstralPositions(s)|
    ensures (forall i :: 0 <= i < |s| ==> s[i] as int < 0x1_0000) ==> n == |s|
  {
    if s == [] then 0
    else
      AstralPositionsCons(s);
      CodeUnits(s[0]) + JsLength(s[1..])
  }

  /** The astral positions of `s` are those of its tail shifted by one, plus
      position 0 when the first character is astral. */
  lemma AstralPositionsCons(s: string)
    requires s != []
    ensures |AstralPositions(s)| == CodeUnits(s[0]) - 1 + |AstralPositions(s[1..])|
  {
    var tail := AstralPositions(s[1..]);
    var shifted := set i: nat | i in tail :: i + 1;
    var head: set<nat> := if s[0] as int >= 0x1_0000 then {0} else {};
    assert AstralPositions(s) == head + shifted by {
      forall i: nat ensures i in AstralPositions(s) <==> i in head + shifted {
        if i > 0 && i < |s| {
          assert s[1..][i - 1] == s[i];
          assert i - 1 in tail <==> i in shifted;
        }
      }
    }
    ShiftCard(tail);
    assert head !! shifted;
  }

  /** Adding one to every element keeps the size of a set. */
  lemma {:induction false} ShiftCard(t: set<nat>)
    ensures |set i: nat | i in t :: i + 1| == |t|
    decreases |t|
  {
    if t != {} {
      var x :| x in t;
      var rest := t - {x};
      ShiftCard(rest);
      assert (set i: nat | i in t :: i + 1) == (set i: nat | i in rest :: i + 1) + {x + 1} by {
        assert t == rest + {x};
      }
      assert x + 1 !in (set i: nat | i in rest :: i + 1);
    } else {
      assert (set i: nat | i in t :: i + 1) == {};
    }
  }

  function ValidateTitle(input: string): (v: Verdict)
    ensures v == Accept || v == Reject(TitleMessage)
    ensures v == Accept <==> |input| + |AstralPositions(input)| >= 3
    ensures |input| >= 3 ==> v == Accept
    ensures |input| < 2 ==> v == Reject(TitleMessage)
    ensures |input| == 2 ==> (v == Accept <==> exists i :: 0 <= i < 2 && input[i] as int >= 0x1_0000)
    ensures (forall i :: 0 <= i < |input| ==> input[i] as int < 0x1_0000) ==> (v == Accept <==> |input| >= 3)
  {
    assert |input| == 2 ==> JsLength(input) == CodeUnits(input[0]) + CodeUnits(input[1]) by {
      if |input| == 2 {
        assert JsLength(input[1..]) == CodeUnits(input[1]) + JsLength(input[1..][1..]);
      }
    }
    if JsLength(input) >= 3 then Accept else Reject(TitleMessage)
  }

  /** Two characters outside the Basic Multilingual Plane already make a title
      of JavaScript length 4, so the title check lets them through. */
  lemma TwoAstralCharactersPass(a: char, b: char)
    requires a as int >= 0x1_0000 && b as int >= 0x1_0000
    ensures ValidateTitle([a, b]) == Accept
  {
    assert JsLength([a, b]) == CodeUnits(a) + JsLength([b]);
    assert JsLength([b]) == CodeUnits(b) + JsLength([]);
  }

  // ---------------------------------------------------------------------------
  // Description: `input.trim() ? true : 'Description is required'`

  /** ECMAScript WhiteSpace and LineTerminator code points, which `trim`
      removes. */
  predicate IsWhitespace(c: char) {
    var n := c as int;
    n == 0x09 || n == 0x0A || n == 0x0B || n == 0x0C || n == 0x0D || n == 0x20
    || n == 0xA0 || n == 0x1680 || (0x2000 <= n <= 0x200A) || n == 0x2028 || n == 0x2029
    || n == 0x202F || n == 0x205F || n == 0x3000 || n == 0xFEFF
  }

  predicate AllWhitespace(s: string) {
    forall i :: 0 <= i < |s| ==> IsWhitespace(s[i])
  }

  /** Drops leading whitespace: the result is the suffix of `s` that starts at
      its first non-whitespace character. */
  function TrimStart(s: string): (r: string)
    ensures |r| <= |s| && r == s[|s| - |r|..]
    ensures AllWhitespace(s[..|s| - |r|])
    ensures r != [] ==> !IsWhitespace(r[0])
  {
    if s != [] && IsWhitespace(s[0]) then TrimStart(s[1..]) else s
  }

  /** Drops trailing whitespace: the result is the prefix of `s` that ends at
      its last non-whitespace character. */
  function TrimEnd(s: string): (r: string)
    ensures |r| <= |s| && r == s[..|r|]
    ensures AllWhitespace(s[|r|..])
    ensures r != [] ==> !IsWhitespace(r[|r| - 1])
  {
    if s != [] && IsWhitespace(s[|s| - 1]) then TrimEnd(s[..|s| - 1]) else s
  }

  /** JavaScript `s.trim()`. */
  function Trim(s: string): (r: string)
    ensures r == [] <==> AllWhitespace(s)
    ensures r != [] ==> !IsWhitespace(r[0]) && !IsWhitespace(r[|r| - 1])
  {
    var t := TrimStart(s);
    assert s == s[..|s| - |t|] + t;
    TrimEnd(t)
  }

  function ValidateDescription(input: string): (v: Verdict)
    ensures v == Accept || v == Reject(DescriptionMessage)
    ensures v == Accept <==> exists i :: 0 <= i < |input| && !IsWhitespace(input[i])
  {
    if Trim(input) != [] then Accept else Reject(DescriptionMessage)
  }

  // ---------------------------------------------------------------------------
  // Prices

  /** Start price: `input >= 0 ? true : 'Price must be non-negative'`. */
  function ValidateStartPrice(input: Num): (v: Verdict)
    ensures v == Accept || v == Reject(PriceMessage)
    ensures v == Accept <==> (input == PosInfinity || (input.Finite? && input.value >= 0.0))
  {
    if AtLeastZero(input) then Accept else Reject(PriceMessage)
  }

  /** The answers collected before the reserve price is asked for; the
      reserve-price callback receives them and never looks at them. */
  datatype EarlierAnswers = EarlierAnswers(title: string, description: string, startPrice: Num)

  /** Reserve price: `if (input < 0) return 'Price must be non-negative';
      return true;` */
  function ValidateReservePrice(input: Num, answers: EarlierAnswers): (v: Verdict)
    ensures v == Accept || v == Reject(PriceMessage)
    ensures v == Reject(PriceMessage) <==> (input == NegInfinity || (input.Finite? && input.value < 0.0))
  {
    if BelowZero(input) then Reject(PriceMessage) else Accept
  }

  /** On every number except NaN the two price callbacks agree, although one
      is written `>= 0` and the other `!(< 0)`. */
  lemma PriceValidatorsAgreeOnNumbers(input: Num, answers: EarlierAnswers)
    requires input != NaN
    ensures ValidateStartPrice(input) == ValidateReservePrice(input, answers)
  {
    BelowZeroIsNotAtLeastZero(input);
  }

  /** On NaN (what a number prompt yields for text that is not a number) they
      disagree: the start price is rejected, the reserve price accepted. */
  lemma PriceValidatorsDisagreeOnNaN(answers: EarlierAnswers)
    ensures ValidateStartPrice(NaN) == Reject(PriceMessage)
    ensures ValidateReservePrice(NaN, answers) == Accept
  {
  }

  /** The reserve price is not compared with the start price: any reserve
      that is not below zero passes, whatever start price came before it,
      including a reserve lower than the start price. */
  lemma ReserveIgnoresStartPrice(reserve: Num, a: EarlierAnswers, b: EarlierAnswers)
    ensures ValidateReservePrice(reserve, a) == ValidateReservePrice(reserve, b)
    ensures (a.startPrice.Finite? && reserve.Finite? && 0.0 <= reserve.value < a.startPrice.value)
              ==> ValidateReservePrice(reserve, a) == Accept
  {
  }

  // ---------------------------------------------------------------------------
  // The whole question list

  /** The answers object the prompt resolves to: the prompt only resolves once
      every callback has returned `true`. */
  datatype Answers = Answers(title: string, description: string, startPrice: Num, reservePrice: Num)
  {
    /** The object handed on to the store: the four fields, nothing else. */
    function AsInput(): (r: Input)
      ensures r.title == title && r.description == Some(description)
      ensures r.startPrice == Some(startPrice) && r.reservePrice == Some(reservePrice)
      ensures r.others == map[]
    {
      Input(title, Some(description), Some(startPrice), Some(reservePrice), map[])
    }
  }

  predicate AnswersAccepted(a: Answers) {
    && ValidateTitle(a.title) == Accept
    && ValidateDescription(a.description) == Accept
    && ValidateStartPrice(a.startPrice) == Accept
    && ValidateReservePrice(a.reservePrice, EarlierAnswers(a.title, a.description, a.startPrice)) == Accept
  }

  /** What accepted answers guarantee about the record built from them: a
      title of JavaScript length at least 3, a description with a
      non-whitespace character, a start price that is a number >= 0 and a
      reserve price that is not below zero (NaN included). */
  lemma AcceptedAnswersShape(a: Answers)
    requires AnswersAccepted(a)
    ensures JsLength(a.title) >= 3
    ensures !AllWhitespace(a.description)
    ensures a.startPrice != NaN && AtLeastZero(a.startPrice)
    ensures !BelowZero(a.reservePrice)
  {
  }
}
